=== FILE: README.md ===
# Speech segmentation engine of the sound-stream plugin, in Dafny

The iOS side of the sound-stream plugin buffers captured audio frames in a
window (`payloadList`). An asynchronous sound classifier reports time ranges
it believes hold speech. The engine maps each such verdict onto window
indices. It then either moves the pending speech span's (`lastSpeechFound`)
end to the new range's end, possibly earlier than before, or flushes it: the span is trimmed of silence at both ends, split at long
silent runs, and emitted. Between verdicts, the window housekeeps itself:
a pending span is flushed once the window holds at least `endIndex + 30`
frames (29 after the span's last frame), and an idle window of 100
frames or more drops its first `i` frames, `i` being the first sounding
offset in 10..50, whatever frames 0..9 hold.

This project models that engine as pure functions over immutable values:

- a frame is its `isEmpty` flag and its media-clock time;
- the window is a `seq<Frame>`;
- a `PayloadsRange` is a pair of integers, and `(0, 0)` keeps its role as the "unset" sentinel;
- the engine state is the window plus the pending span;
- emission is the list of index ranges `sendSpeech` would convert and send.

Every place where the Swift code would trap is modelled explicitly:

- a closed range `a...b` with `a > b`;
- an array index outside the buffer.

The pure helpers (`TrimEmpty`, `TrySplitRange`, `SendSpeech`) require the
range to be `Trimmable`: `0 <= start <= end < |window|`. The entry points
(`SpeechFound`, `TrySendLastSpeech`, `AnalyzeAudio`) instead return `Trap`.
This keeps reachable crashes visible.

The modules follow the components of the engine:

- `Frames`, `Ranges`, `Outcomes` — data model;
- `Trim` — `trimEmpty`;
- `Split` — `trySplitRange`;
- `Emit` — the range selection of `sendSpeech`;
- `Correlator` — the verdict gate and the index scan of `speechFound`;
- `EngineState`, `Accumulator` — `shouldSendSpeech` and `speechFound`;
- `Housekeeping` — `tryTrimPayloadList`, `trySendLastSpeech` and `analyzeAudio`;
- `Segmenter` — event handling, runs, and worked scenarios.

The code's quirks are kept, not fixed:

- **Index 0 never starts a correlated range.** The scan uses "start is still 0" as its "nothing found yet" test, so a match at index 0 is overwritten by the next match, or dropped if it is the only one.
- **A single matched frame `k > 0` yields the reversed range `(k, 0)`.** If another span is already pending, the reversed range never becomes the pending span: it traps at once in the first `trimEmpty` of `shouldSendSpeech`. If the engine is idle, it becomes the pending span, and the next trim of it traps. That trim comes on the next matched verdict, because the span is trimmed before the gap test, or in the valve once the window holds 30 frames (`SingleFrameVerdictTraps`).
- **A verdict that does not flush can shorten or reverse the span.** The span's end is set to the new range's untrimmed end even when that lies before the old end. Pending `(5,8)` and a verdict on frames 2..3 give `(5,3)`, a reversed span built from two forward ones, and the next matched verdict traps (`EarlierVerdictReverses`, `ReversedSpanTraps`).
- **The stale-span valve drops `endIndex` frames, not `endIndex + 1`.** The span's last frame stays in the window at index 0.
- **`sendSpeech` returns at the first invalid split piece.** That `return` never fires, because no split piece is invalid.
- **An idle window whose frames 10..50 are all silent is never trimmed.** Such a window grows without bound during silence (`SilenceIsNeverTrimmed`).
- **Frames 0..9 are dropped unseen.** The probe starts at offset 10, so an idle window of 100 sounding frames loses its first ten sounding frames (`TrimDropsEarlySound`).

Three more behaviours of the code are easy to misread:

- **Splitting `2..9`.** With frames 2–4 sounding, 5–8 silent and 9 sounding, splitting `2..9` returns `[2,9]`, not `[2,4]` and `[9,9]`. A silent run stays at the end of the piece before the cut, and a final piece of fewer than three frames is merged back (`SplitMergesShortTail`).
- **Stale-span threshold.** The valve fires as soon as `count >= endIndex + 30`, when 29 frames follow the span's last frame, not only once more than 30 do.
- **After a flush in `speechFound`.** The new range becomes the pending span only after every frame before it is dropped, and the span is re-based to `(0, end - start)` (`SpeechFoundFlushRebases`).

## Model

| member | source | states |
|---|---|---|
| `Frames.DropFirst` | ios/Classes/SwiftSoundStreamPlugin.swift:403 | dropping k frames leaves `count - k` frames (none when k exceeds the count); frame j of the result is frame k + j of the input |
| `Ranges.RangeFlags` | ios/Classes/SwiftSoundStreamPlugin.swift:127-161 | an unset range is invalid; invalid holds iff amount is at most 1; after reSet the range is unset; setRange(s, e) is unset iff s = e = 0, so any start other than 0 leaves it set; setStart and setEnd leave the other end alone |
| `Trim.ScanStart` | ios/Classes/SwiftSoundStreamPlugin.swift:487-495 | the first loop stops at the first non-empty frame of `i..e`, every frame it stepped past is empty, and it stops at `e` when the whole stretch is silent |
| `Trim.ScanEnd` | ios/Classes/SwiftSoundStreamPlugin.swift:496-504 | the second loop stops at the last non-empty frame of `s..j`, every frame it stepped back over is empty, and it stops at `s` when the whole stretch is silent |
| `Trim.TrimEmpty` | ios/Classes/SwiftSoundStreamPlugin.swift:483-508 | on `0 <= s <= e < count` the result satisfies `s <= s' <= e' <= e`; every frame trimmed away is empty; when `s'` is a sound frame so is `e'`; when `s'` is silent the whole range was silent and the result is `(e, e)` |
| `Trim.TrimEnds` | ios/Classes/SwiftSoundStreamPlugin.swift:483-508 | the range holds sound iff the trimmed start is a sound frame, in which case both trimmed ends are sound frames; a silent range trims to `(e, e)` |
| `Trim.TrimInvalidIff` | ios/Classes/SwiftSoundStreamPlugin.swift:483-508 | the trimmed range is invalid exactly when the range holds fewer than two sound frames |
| `Trim.TrimIdempotent` | ios/Classes/SwiftSoundStreamPlugin.swift:483-508 | trimming a trimmed range returns the same start and end |
| `Split.SplitScan` | ios/Classes/SwiftSoundStreamPlugin.swift:519-561 | the loop's pieces tile the trimmed range in order, each piece spans at least three frames, every piece after the first starts at a sound frame preceded by four silent frames, and a cut point inside a piece can only be one the tail merge swallowed, fewer than two frames before the end |
| `Split.TrySplitRange` | ios/Classes/SwiftSoundStreamPlugin.swift:510-563 | returns nothing exactly when the trimmed range is invalid; returns the trimmed range unsplit when it has at most three frames; otherwise its pieces tile the trimmed range from its start to its end, none is invalid, later pieces start at cut points, and with several pieces each has at least three frames |
| `Split.TilesOrdered` | ios/Classes/SwiftSoundStreamPlugin.swift:528-558 | pieces that tile a range never overlap: each ends before any later one starts |
| `Split.TilesWithin` | ios/Classes/SwiftSoundStreamPlugin.swift:528-558 | every piece of a tiling is a valid range inside the range it tiles |
| `Split.TilesCover` | ios/Classes/SwiftSoundStreamPlugin.swift:528-558 | pieces that tile a range cover every index of it, so their union is the trimmed range |
| `Split.SplitStartsAreCuts` | ios/Classes/SwiftSoundStreamPlugin.swift:527-559 | an index of the trimmed range starts a later piece iff it is a sound frame after four silent frames and lies at least two frames before the trimmed end |
| `Split.SilenceStaysBehind` | ios/Classes/SwiftSoundStreamPlugin.swift:527-533 | the four silent frames before a later piece's start lie in the previous piece, after that piece's sounding start, so a silent run ends the piece before the cut |
| `Split.SplitMergesShortTail` | ios/Classes/SwiftSoundStreamPlugin.swift:540-551 | frames 2–4 sound, 5–8 silent, 9 sound: range `2..9` comes back as the single piece `[2,9]` |
| `Emit.EmitUntilInvalid` | ios/Classes/SwiftSoundStreamPlugin.swift:581-585 | the emitted ranges are the longest prefix of the split pieces with no invalid range; when it stops early, the next piece is invalid |
| `Emit.SendSpeech` | ios/Classes/SwiftSoundStreamPlugin.swift:573-587 | the ranges emitted are exactly the split pieces of the range, so the early return never fires; nothing is emitted iff the trimmed range is invalid; each emitted range is valid and inside the input range |
| `Correlator.SpeechVerdict` | ios/Classes/SwiftSoundStreamPlugin.swift:29-38 | a result is passed on iff its first classification is labelled "speech" with confidence above 0.1, and then its time range is passed on |
| `Correlator.CorrelateScan` | ios/Classes/SwiftSoundStreamPlugin.swift:649-662 | from any intermediate state of the scan the final range meets the declarative description in `Correlated` |
| `Correlator.Correlate` | ios/Classes/SwiftSoundStreamPlugin.swift:648-666 | unset iff no frame after index 0 lies in the verdict's time range; otherwise it starts at the first such frame and ends at the last frame of the run of frames inside from there, or at 0 when that run is one frame long |
| `Correlator.CorrelateShape` | ios/Classes/SwiftSoundStreamPlugin.swift:649-666 | a found range lies in the window, and it is reversed (start after end) exactly when its end is 0, i.e. a single frame matched |
| `Correlator.FirstFrameOverwritten` | ios/Classes/SwiftSoundStreamPlugin.swift:652-656 | three frames all inside the time range correlate to `(1, 2)`: the match at index 0 is lost |
| `Accumulator.ShouldSendSpeech` | ios/Classes/SwiftSoundStreamPlugin.swift:626-646 | idle: the new range becomes the pending span exactly, and no send; otherwise it traps iff either range cannot be trimmed, returns true iff the trimmed new start exceeds the trimmed pending end by more than 2 (pending span untouched), and when false only the pending end changes, to the untrimmed new end |
| `Accumulator.SpeechFound` | ios/Classes/SwiftSoundStreamPlugin.swift:648-683 | when no frame matches, window and pending span are unchanged and nothing is sent; a pending span inside the window stays inside the window |
| `Accumulator.OnClassification` | ios/Classes/SwiftSoundStreamPlugin.swift:29-38 | a result the gate rejects changes nothing; an accepted one is handed to `speechFound` with its time range, and the pending span stays inside the window |
| `Accumulator.SpeechFoundCases` | ios/Classes/SwiftSoundStreamPlugin.swift:663-682 | with a match: idle takes the range as the pending span; a set span traps iff either range cannot be trimmed; a kept window means the span's end was moved to the new range's untrimmed end, possibly earlier, and nothing sent; with a span set, the window is chopped iff the new range's trimmed start lies more than 2 frames after the span's trimmed end, and a chop sends the split of the old span |
| `Accumulator.SpeechFoundFlushRebases` | ios/Classes/SwiftSoundStreamPlugin.swift:672-682 | after a flush the window is exactly the input without its first `range.startIndex` frames, and the new span `(0, end - start)` is set and denotes the same frames the correlated range denoted before the chop |
| `Housekeeping.ProbeFrom` | ios/Classes/SwiftSoundStreamPlugin.swift:382-388 | the probe finds the first sound frame among offsets i..50, all before it silent, or reports that all are silent |
| `Housekeeping.TryTrimPayloadList` | ios/Classes/SwiftSoundStreamPlugin.swift:377-389 | never changes the window while a span is set or below 100 frames; changes it iff idle, at least 100 frames and a sound frame among offsets 10..50; then it drops i frames for the first such i, so the new head is a sound frame |
| `Housekeeping.TrySendLastSpeech` | ios/Classes/SwiftSoundStreamPlugin.swift:391-406 | idle: only the trim runs; a set span is flushed iff `count >= end + 30`; a flush traps iff the span cannot be trimmed, otherwise it sends the split of the span, unsets it and leaves the window shorter by exactly the old end |
| `Housekeeping.AnalyzeAudio` | ios/Classes/SwiftSoundStreamPlugin.swift:408-410 | traps iff housekeeping traps; otherwise the frame is appended after the housekept window, and the pending span and the emission are exactly those `trySendLastSpeech` produced; afterwards a set span leaves the window at most `endIndex + 30` frames long; a non-reversed state never traps and stays non-reversed |
| `Housekeeping.TrimDropsEarlySound` | ios/Classes/SwiftSoundStreamPlugin.swift:377-389 | an idle window of 100 sounding frames comes back without its first ten frames, since the probe starts at offset 10 and drops everything before it |
| `Housekeeping.SilenceIsNeverTrimmed` | ios/Classes/SwiftSoundStreamPlugin.swift:377-389 | an idle window of silent frames keeps every frame, and each captured silent frame lengthens it |
| `Housekeeping.ValveKeepsLastFrame` | ios/Classes/SwiftSoundStreamPlugin.swift:403 | after a forced flush the window starts with the flushed span's last frame |
| `Segmenter.Handle` | ios/Classes/SwiftSoundStreamPlugin.swift:408-417 | a captured frame is handled exactly by `analyzeAudio` and a classifier result exactly by the observer's gate and `speechFound`; either keeps the pending span inside the window |
| `Segmenter.RunKeepsInv` | ios/Classes/SwiftSoundStreamPlugin.swift:391-410 | every state reached by a run of events that does not trap keeps the pending span inside the window |
| `Segmenter.CaptureOnlyNeverTraps` | ios/Classes/SwiftSoundStreamPlugin.swift:391-410 | from a state whose pending span is not reversed, any run of captured frames completes and keeps the span not reversed |
| `Segmenter.CapturesStayIdle` | ios/Classes/SwiftSoundStreamPlugin.swift:377-410 | from an idle state, any run of captured frames completes and leaves nothing pending: only a verdict sets the span |
| `Segmenter.RecordingStartsIdle` | ios/Classes/SwiftSoundStreamPlugin.swift:225-236 | the state at the start of recording, an empty window with the span unset, is not reversed, and captured frames alone keep it idle |
| `Segmenter.SingleFrameVerdictTraps` | ios/Classes/SwiftSoundStreamPlugin.swift:648-662 | an idle 30-frame window and a verdict matching only index 1 leave the pending span `(1, 0)`, and the next captured frame traps in the valve |
| `Segmenter.JoinExtends` | ios/Classes/SwiftSoundStreamPlugin.swift:626-683 | on thirteen sounding frames, span `(0,5)` is extended to `(0,7)` by a verdict one frame after it, and nothing is sent |
| `Segmenter.GapFlushes` | ios/Classes/SwiftSoundStreamPlugin.swift:626-683 | on the same frames, a verdict four frames after span `(0,7)` flushes `[0,7]` whole, drops 11 frames and leaves the span `(0,1)` |
| `Segmenter.EarlierVerdictReverses` | ios/Classes/SwiftSoundStreamPlugin.swift:626-646 | on thirteen sounding frames, pending `(5,8)` and a verdict on frames 2..3 keep the window, send nothing and leave the reversed span `(5,3)` |
| `Segmenter.ReversedSpanTraps` | ios/Classes/SwiftSoundStreamPlugin.swift:626-634 | with the reversed span `(5,3)` pending, the next matched verdict traps in the trim of the span |

## Left out

- Flutter method dispatch, event channel and `sendResult`: plumbing with no engine state.
- Audio engine, player, session and permissions: platform I/O.
- Handing each frame to the classifier, and concurrency. `speechFound` runs on the analysis queue and `analyzeAudio` on the audio tap thread; both read and write `payloadList` and `lastSpeechFound` with no lock, so a verdict can interleave with housekeeping half way through. The model makes each event atomic and applies each verdict to the state current at that moment, one event at a time.
- Format conversion and byte copying (`AVAudioConverter`, `audioBufferToBytes`): foreign calls on raw buffers. Emission is the list of index ranges whose frames would be converted and concatenated.
- The format check at the top of `sendSpeech`: it is assumed to pass, since the recorder always uses 16-bit PCM.
- `getVolume` and the silence threshold 0.02: floating-point envelope arithmetic. `isEmpty` is an input of each frame.
- The media time of a frame: computed in floating point from sample time and rate. Each frame carries an integer time instead.
- Wall-clock `recordedTime` and the capture-time stamp on emitted data: not deterministic.
- `secondsFromPayloads`: floating point, and never called.
- Float rounding of the confidence: `Correlator.SpeechVerdict` compares a `real` with 0.1.
- `startSoundAnalysis` clearing the window without resetting the pending span: this is recording set-up, outside the engine.

=== FILE: accumulator.dfy ===
/** The speech accumulator: `shouldSendSpeech` and `speechFound`. */
module Accumulator {
  import opened Outcomes
  import opened Frames
  import opened Ranges
  import opened Trim
  import opened Split
  import opened Emit
  import opened Correlator
  import opened EngineState

  /** The largest distance between the last sound of the pending span and
      the first sound of a new range that still joins them. */
  const MaxJoinGap := 2

  /** What `shouldSendSpeech` returns, with the pending span it leaves. */
  datatype Decision = Decision(send: bool, lastSpeechFound: PayloadsRange)

  /** `shouldSendSpeech(range)` against the pending span `last`. Idle: the
      new range becomes the pending span as it is. Otherwise both are
      trimmed (which traps on a reversed or out-of-window range), and the
      pending span is flushed when the new range's first sound lies more
      than two frames after the span's last sound; if not, the span's end
      moves to the untrimmed end of the new range. */
  function ShouldSendSpeech(w: Window, last: PayloadsRange, range: PayloadsRange): (r: Exec<Decision>)
    ensures last.UnSet() ==> r == Ok(Decision(false, range))
    ensures !last.UnSet() ==> (r.Trap? <==> !Trimmable(w, range) || !Trimmable(w, last))
    ensures !last.UnSet() && r.Ok? ==>
              && (r.value.send <==> TrimEmpty(w, range).startIndex > TrimEmpty(w, last).endIndex + MaxJoinGap)
              && (r.value.send ==> r.value.lastSpeechFound == last)
              && (!r.value.send ==> r.value.lastSpeechFound == PayloadsRange(last.startIndex, range.endIndex))
  {
    if last.UnSet() then
      Ok(Decision(false, last.SetRange(range.startIndex, range.endIndex)))
    else if !Trimmable(w, range) || !Trimmable(w, last) then
      Trap
    else
      var preEnd := TrimEmpty(w, last).endIndex;
      var newStart := TrimEmpty(w, range).startIndex;
      if newStart > preEnd && newStart - preEnd > MaxJoinGap then Ok(Decision(true, last))
      else Ok(Decision(false, last.SetEnd(range.endIndex)))
  }

  /** `speechFound(timeRange)`: correlate the verdict with the window; if
      nothing matches, do nothing. Otherwise let `shouldSendSpeech` decide;
      on a flush, emit the pending span, drop every frame before the new
      range, and make the new range, re-based to index 0, the pending span. */
  function SpeechFound(e: Engine, tr: TimeRange): (r: Exec<Step>)
    ensures Correlate(e.payloadList, tr).UnSet() ==> r == Ok(Step(e, []))
    ensures Inv(e) && r.Ok? ==> Inv(r.value.engine)
  {
    var w, last := e.payloadList, e.lastSpeechFound;
    var range := Correlate(w, tr);
    CorrelateShape(w, tr);
    if range.UnSet() then Ok(Step(e, []))
    else
      match ShouldSendSpeech(w, last, range)
      case Trap => Trap
      case Ok(d) =>
        if !d.send then Ok(Step(Engine(w, d.lastSpeechFound), []))
        else
          var chopped := DropFirst(w, range.startIndex);
          var pending := last.SetRange(0, range.endIndex - range.startIndex);
          Ok(Step(Engine(chopped, pending), SendSpeech(w, last)))
  }

  /** A verdict from the classifier: accepted ones go to `speechFound`. */
  function OnClassification(e: Engine, res: ClassificationResult): (r: Exec<Step>)
    ensures SpeechVerdict(res).None? ==> r == Ok(Step(e, []))
    ensures SpeechVerdict(res).Some? ==> r == SpeechFound(e, SpeechVerdict(res).value)
    ensures Inv(e) && r.Ok? ==> Inv(r.value.engine)
  {
    match SpeechVerdict(res)
    case None => Ok(Step(e, []))
    case Some(tr) => SpeechFound(e, tr)
  }

  /** The four ways `speechFound` can go once a range was correlated; with
      a span pending, the window is chopped exactly when the new range's
      first sound lies more than `MaxJoinGap` frames after the span's last. */
  lemma SpeechFoundCases(e: Engine, tr: TimeRange)
    requires Inv(e)
    requires !Correlate(e.payloadList, tr).UnSet()
    ensures var w, last, range := e.payloadList, e.lastSpeechFound, Correlate(e.payloadList, tr);
            var r := SpeechFound(e, tr);
            && (last.UnSet() ==> r == Ok(Step(Engine(w, range), [])))
            && (!last.UnSet() ==> (r.Trap? <==> !Trimmable(w, range) || !Trimmable(w, last)))
            && (!last.UnSet() && r.Ok? && r.value.engine.payloadList == w ==>
                  && r.value.engine.lastSpeechFound == PayloadsRange(last.startIndex, range.endIndex)
                  && r.value.sent == [])
            && (!last.UnSet() && r.Ok? && r.value.engine.payloadList != w ==>
                  && TrimEmpty(w, range).startIndex > TrimEmpty(w, last).endIndex + MaxJoinGap
                  && r.value.sent == TrySplitRange(w, last))
            && (!last.UnSet() && r.Ok? ==>
                  (r.value.engine.payloadList != w <==>
                   TrimEmpty(w, range).startIndex > TrimEmpty(w, last).endIndex + MaxJoinGap))
  {
    CorrelateShape(e.payloadList, tr);
  }

  /** After a flush the window is the input with exactly its first
      `range.startIndex` frames gone, and the new
      pending span `(0, end - start)` denotes in the chopped window the
      very frames the correlated range denoted before the chop. */
  lemma SpeechFoundFlushRebases(e: Engine, tr: TimeRange)
    requires Inv(e)
    requires SpeechFound(e, tr).Ok?
    requires SpeechFound(e, tr).value.engine.payloadList != e.payloadList
    ensures var w, range := e.payloadList, Correlate(e.payloadList, tr);
            var after := SpeechFound(e, tr).value.engine;
            && Trimmable(w, range) && range.startIndex < range.endIndex
            && after.payloadList == w[range.startIndex..]
            && after.lastSpeechFound == PayloadsRange(0, range.endIndex - range.startIndex)
            && !after.lastSpeechFound.UnSet()
            && Trimmable(after.payloadList, after.lastSpeechFound)
            && Denotes(after.payloadList, after.lastSpeechFound) == Denotes(w, range)
  {
    var w, range := e.payloadList, Correlate(e.payloadList, tr);
    CorrelateShape(w, tr);
    var after := SpeechFound(e, tr).value.engine;
    assert after.payloadList == w[range.startIndex..];
  }
}

=== FILE: correlator.dfy ===
/** The classifier side of the engine: which verdicts are accepted, and
    how `speechFound` maps a verdict's time range onto window indices. */
module Correlator {
  import opened Outcomes
  import opened Frames
  import opened Ranges

  /** One label of a sound-classification result. */
  datatype Classification = Classification(identifier: string, confidence: real)

  /** A classification result: labels best first, and the time range it
      is about. */
  datatype ClassificationResult = ClassificationResult(classifications: seq<Classification>, timeRange: TimeRange)

  /** The lowest confidence that is not accepted as speech. */
  const MinConfidence: real := 0.1

  /** The gate of the results observer: only the first (best)
      classification is consulted, and its time range is passed on when it
      is labelled "speech" with confidence above 0.1. */
  function SpeechVerdict(res: ClassificationResult): (v: Option<TimeRange>)
    ensures v.Some? <==> |res.classifications| > 0
                         && res.classifications[0].confidence > MinConfidence
                         && res.classifications[0].identifier == "speech"
    ensures v.Some? ==> v.value == res.timeRange
  {
    if |res.classifications| == 0 then None
    else
      var c := res.classifications[0];
      if c.confidence > MinConfidence && c.identifier == "speech" then Some(res.timeRange)
      else None
  }

  /** Frame `j` lies inside the verdict's time range. */
  predicate Inside(w: Window, tr: TimeRange, j: int)
    requires 0 <= j < |w|
  {
    tr.Contains(w[j].time)
  }

  /** What the scan finds, stated without the scan: nothing (the unset
      range) when no frame after the first is inside; otherwise the range
      starts at the first such frame `k`, and ends at the last frame of
      the run of inside frames from `k` — except that a run of one frame
      leaves the end at 0. A match at index 0 never counts, since a start
      of 0 reads as "not found yet". */
  predicate Correlated(w: Window, tr: TimeRange, r: PayloadsRange) {
    if forall j :: 1 <= j < |w| ==> !Inside(w, tr, j) then r == Unset
    else
      && 1 <= r.startIndex < |w|
      && Inside(w, tr, r.startIndex)
      && (forall j :: 1 <= j < r.startIndex ==> !Inside(w, tr, j))
      && if r.endIndex == 0 then
           r.startIndex + 1 == |w| || !Inside(w, tr, r.startIndex + 1)
         else
           && r.startIndex < r.endIndex < |w|
           && (forall j :: r.startIndex <= j <= r.endIndex ==> Inside(w, tr, j))
           && (r.endIndex + 1 == |w| || !Inside(w, tr, r.endIndex + 1))
  }

  /** What holds when the scan reaches index `idx` with the range found
      so far. */
  predicate ScanSoFar(w: Window, tr: TimeRange, idx: int, range: PayloadsRange) {
    && 0 <= idx <= |w|
    && if range.startIndex == 0 then
         range.endIndex == 0 && forall j :: 1 <= j < idx ==> !Inside(w, tr, j)
       else
         && 1 <= range.startIndex < idx
         && (forall j :: 1 <= j < range.startIndex ==> !Inside(w, tr, j))
         && (forall j :: range.startIndex <= j < idx ==> Inside(w, tr, j))
         && range.endIndex == if idx - 1 == range.startIndex then 0 else idx - 1
  }

  /** The loop of `speechFound` from index `idx`: a frame inside sets the
      start while the start is still 0, and the end otherwise; the first
      frame outside after a range was found ends the scan. */
  function CorrelateScan(w: Window, tr: TimeRange, idx: int, range: PayloadsRange): (r: PayloadsRange)
    requires ScanSoFar(w, tr, idx, range)
    ensures Correlated(w, tr, r)
    decreases |w| - idx
  {
    if idx == |w| then
      assert range.startIndex != 0 ==> Inside(w, tr, range.startIndex);
      range
    else if tr.Contains(w[idx].time) then
      if range.startIndex == 0 then CorrelateScan(w, tr, idx + 1, range.SetStart(idx))
      else CorrelateScan(w, tr, idx + 1, range.SetEnd(idx))
    else if !range.UnSet() then range
    else CorrelateScan(w, tr, idx + 1, range)
  }

  /** The index range of the buffered frames a verdict's time range covers. */
  function Correlate(w: Window, tr: TimeRange): (r: PayloadsRange)
    ensures Correlated(w, tr, r)
  {
    CorrelateScan(w, tr, 0, Unset)
  }

  /** The correlated range is within the window, and it is reversed
      (start after end) exactly when a single frame after index 0
      matched. */
  lemma CorrelateShape(w: Window, tr: TimeRange)
    ensures var r := Correlate(w, tr);
            && 0 <= r.startIndex < |w| + 1 && 0 <= r.endIndex
            && (!r.UnSet() ==> r.startIndex < |w| && r.endIndex < |w|)
            && (!r.UnSet() ==> (r.startIndex > r.endIndex <==> r.endIndex == 0))
            && (r.UnSet() <==> forall j :: 1 <= j < |w| ==> !Inside(w, tr, j))
  {
  }

  /** Frames 0, 1 and 2 all inside: the match at index 0 is overwritten
      by the one at index 1. */
  lemma FirstFrameOverwritten(w: Window, tr: TimeRange)
    requires |w| == 3 && forall j :: 0 <= j < 3 ==> Inside(w, tr, j)
    ensures Correlate(w, tr) == PayloadsRange(1, 2)
  {
    var r := Correlate(w, tr);
    assert Inside(w, tr, 1) && Inside(w, tr, 2);
    assert r.startIndex == 1;
  }
}

=== FILE: emit.dfy ===
/** The range selection of `sendSpeech`: which index ranges it hands to
    the byte converter and the transport. */
module Emit {
  import opened Frames
  import opened Ranges
  import opened Trim
  import opened Split

  /** The loop over the split ranges: it emits each one until it meets an
      invalid one, and then returns, dropping that one and all after it. */
  function EmitUntilInvalid(rs: seq<PayloadsRange>): (out: seq<PayloadsRange>)
    ensures |out| <= |rs| && out == rs[..|out|]
    ensures forall k :: 0 <= k < |out| ==> !out[k].Invalid()
    ensures |out| < |rs| ==> rs[|out|].Invalid()
  {
    if |rs| == 0 || rs[0].Invalid() then []
    else [rs[0]] + EmitUntilInvalid(rs[1..])
  }

  /** No piece of a tiling is invalid, so the loop emits them all. */
  lemma EmitAllOfTiling(rs: seq<PayloadsRange>, s: int, e: int)
    requires Tiles(rs, s, e)
    ensures EmitUntilInvalid(rs) == rs
  {
  }

  /** Splitting the trimmed range is splitting the range. */
  lemma SplitOfTrimmed(w: Window, r: PayloadsRange)
    requires Trimmable(w, r)
    ensures TrySplitRange(w, TrimEmpty(w, r)) == TrySplitRange(w, r)
  {
    TrimIdempotent(w, r);
  }

  /** `sendSpeech(range)`: trim, give up when that leaves the range
      invalid, split the trimmed range and emit its pieces. Each emitted
      range stands for the concatenated bytes of its frames, stamped with
      its first frame's capture time. Because trimming is idempotent and
      no split piece is invalid, this is exactly the split of the range:
      the early `return` never fires. */
  function SendSpeech(w: Window, r: PayloadsRange): (sent: seq<PayloadsRange>)
    requires Trimmable(w, r)
    ensures sent == TrySplitRange(w, r)
    ensures sent == [] <==> TrimEmpty(w, r).Invalid()
    ensures forall k :: 0 <= k < |sent| ==>
              && r.startIndex <= sent[k].startIndex < sent[k].endIndex <= r.endIndex
              && Trimmable(w, sent[k])
  {
    var t := TrimEmpty(w, r);
    if t.Invalid() then []
    else
      var rs := TrySplitRange(w, t);
      SplitOfTrimmed(w, r);
      TilesWithin(rs, t.startIndex, t.endIndex);
      EmitAllOfTiling(rs, t.startIndex, t.endIndex);
      EmitUntilInvalid(rs)
  }
}

=== FILE: engine_state.dfy ===
/** The state the segmentation engine keeps between callbacks. */
module EngineState {
  import opened Frames
  import opened Ranges

  /** `payloadList` and `lastSpeechFound`: the buffered frames and the
      pending, not yet emitted, speech span (unset when idle). */
  datatype Engine = Engine(payloadList: Window, lastSpeechFound: PayloadsRange)

  /** What one entry point did: the state after it, and the index ranges
      `sendSpeech` emitted, as indices into the window before any chop. */
  datatype Step = Step(engine: Engine, sent: seq<PayloadsRange>)

  /** The engine as recording starts: nothing buffered, nothing pending. */
  const Initial := Engine([], Unset)

  /** A pending span only names frames of the current window. Its start
      may lie after its end: that shape is reachable (see the accumulator)
      and makes the next trim trap. */
  predicate Inv(e: Engine) {
    var r := e.lastSpeechFound;
    r.UnSet() || (0 <= r.startIndex < |e.payloadList| && 0 <= r.endIndex < |e.payloadList|)
  }

  /** `Inv`, and a pending span that is not reversed: the states from
      which no entry point can trap at once. */
  predicate Forward(e: Engine) {
    Inv(e) && (e.lastSpeechFound.UnSet() || e.lastSpeechFound.startIndex <= e.lastSpeechFound.endIndex)
  }
}

=== FILE: frames.dfy ===
/** Buffered audio payloads, reduced to what the segmentation engine reads. */
module Frames {

  /** One `AudioPayload`: whether its volume is at or below the silence
      threshold (`isEmpty`), and its position on the media clock
      (the capture sample time, in ticks of the sample rate). */
  datatype Frame = Frame(isEmpty: bool, time: int)

  /** `payloadList`: the buffered frames, oldest first. */
  type Window = seq<Frame>

  /** A classifier's `CMTimeRange`. Containment is half-open: the start is
      inside, the end (start + duration) is not. */
  datatype TimeRange = TimeRange(start: int, duration: int) {
    predicate Contains(t: int) {
      start <= t < start + duration
    }
  }

  /** `Array(w.dropFirst(k))`: the window without its first `k` frames;
      empty when `k` exceeds the count. Swift traps on a negative `k`,
      hence `nat`. */
  function DropFirst(w: Window, k: nat): (r: Window)
    ensures |r| == if k <= |w| then |w| - k else 0
    ensures forall j :: 0 <= j < |r| ==> r[j] == w[k + j]
  {
    if k <= |w| then w[k..] else []
  }
}

=== FILE: housekeeping.dfy ===
/** Window housekeeping, run before each new frame is buffered:
    `tryTrimPayloadList`, `trySendLastSpeech` and `analyzeAudio`. */
module Housekeeping {
  import opened Outcomes
  import opened Frames
  import opened Ranges
  import opened Split
  import opened Emit
  import opened EngineState

  /** The window length at which an idle engine looks for a prefix to drop. */
  const HighWater := 100
  /** The offsets probed for the first non-empty frame, inclusive. */
  const ProbeFirst := 10
  const ProbeLast := 50
  /** The stale-span lag: the span is flushed without a verdict once the
      window holds at least `endIndex + 30` frames, that is, once 29
      frames follow the span's last frame. */
  const StaleLag := 30

  /** The probe loop `for i in 10...50` of `tryTrimPayloadList`, from `i`:
      the first non-empty frame, if any. */
  function ProbeFrom(w: Window, i: int): (r: Option<int>)
    requires ProbeFirst <= i <= ProbeLast + 1 && ProbeLast < |w|
    ensures r.Some? ==> && i <= r.value <= ProbeLast
                        && !w[r.value].isEmpty
                        && forall j :: i <= j < r.value ==> w[j].isEmpty
    ensures r.None? ==> forall j :: i <= j <= ProbeLast ==> w[j].isEmpty
    decreases ProbeLast + 1 - i
  {
    if i > ProbeLast then None
    else if !w[i].isEmpty then Some(i)
    else ProbeFrom(w, i + 1)
  }

  /** `tryTrimPayloadList`: only while idle and holding at least 100
      frames, drop everything before the first non-empty frame among
      offsets 10 to 50; keep the window when those are all empty. */
  function TryTrimPayloadList(e: Engine): (e': Engine)
    ensures e'.lastSpeechFound == e.lastSpeechFound
    ensures !e.lastSpeechFound.UnSet() || |e.payloadList| < HighWater ==> e' == e
    ensures e'.payloadList != e.payloadList <==>
              && e.lastSpeechFound.UnSet() && |e.payloadList| >= HighWater
              && exists j :: ProbeFirst <= j <= ProbeLast && !e.payloadList[j].isEmpty
    ensures e'.payloadList != e.payloadList ==>
              var i := |e.payloadList| - |e'.payloadList|;
              && ProbeFirst <= i <= ProbeLast
              && e'.payloadList == e.payloadList[i..]
              && !e'.payloadList[0].isEmpty
              && forall j :: ProbeFirst <= j < i ==> e.payloadList[j].isEmpty
  {
    var w := e.payloadList;
    if !e.lastSpeechFound.UnSet() || |w| < HighWater then e
    else
      match ProbeFrom(w, ProbeFirst)
      case None => e
      case Some(i) =>
        assert w[i..][0] == w[i];
        Engine(w[i..], e.lastSpeechFound)
  }

  /** `trySendLastSpeech`: idle, it tries to trim the window instead.
      With a span pending and the window holding at least `endIndex + 30`
      frames (29 after the span's last frame), it emits the span, drops
      the first `endIndex` frames (not `endIndex + 1`: the span's last
      frame stays, now at index 0) and goes idle. Emitting traps when the span is reversed. */
  function TrySendLastSpeech(e: Engine): (r: Exec<Step>)
    ensures e.lastSpeechFound.UnSet() ==> r == Ok(Step(TryTrimPayloadList(e), []))
    ensures !e.lastSpeechFound.UnSet() && |e.payloadList| < e.lastSpeechFound.endIndex + StaleLag ==>
              r == Ok(Step(e, []))
    ensures !e.lastSpeechFound.UnSet() && |e.payloadList| >= e.lastSpeechFound.endIndex + StaleLag ==>
              && (r.Trap? <==> !Trimmable(e.payloadList, e.lastSpeechFound))
              && (r.Ok? ==>
                    var last, after := e.lastSpeechFound, r.value.engine;
                    && after.lastSpeechFound.UnSet()
                    && |after.payloadList| == |e.payloadList| - last.endIndex
                    && after.payloadList == e.payloadList[last.endIndex..]
                    && r.value.sent == TrySplitRange(e.payloadList, last))
  {
    var w, last := e.payloadList, e.lastSpeechFound;
    if last.UnSet() then Ok(Step(TryTrimPayloadList(e), []))
    else if |w| - StaleLag < last.endIndex then Ok(Step(e, []))
    else if !Trimmable(w, last) then Trap
    else
      var sent := SendSpeech(w, last);
      Ok(Step(Engine(DropFirst(w, last.endIndex), last.ReSet()), sent))
  }

  /** `analyzeAudio`: housekeeping, then buffer the frame. Handing the
      frame to the classifier is not modelled. While a span is pending
      afterwards, the window holds at most `endIndex + 30` frames, so at
      most 29 follow the span's last frame; the pending span and the
      emission are those `trySendLastSpeech` left. */
  function AnalyzeAudio(e: Engine, f: Frame): (r: Exec<Step>)
    ensures r.Trap? <==> TrySendLastSpeech(e).Trap?
    ensures r.Ok? ==> && |r.value.engine.payloadList| > 0
                      && r.value.engine.payloadList[|r.value.engine.payloadList| - 1] == f
                      && r.value.engine.payloadList[..|r.value.engine.payloadList| - 1]
                         == TrySendLastSpeech(e).value.engine.payloadList
    ensures r.Ok? ==> && r.value.engine.lastSpeechFound == TrySendLastSpeech(e).value.engine.lastSpeechFound
                      && r.value.sent == TrySendLastSpeech(e).value.sent
    ensures r.Ok? && !r.value.engine.lastSpeechFound.UnSet() ==>
              |r.value.engine.payloadList| <= r.value.engine.lastSpeechFound.endIndex + StaleLag
    ensures Inv(e) && r.Ok? ==> Inv(r.value.engine)
    ensures Forward(e) ==> r.Ok? && Forward(r.value.engine)
  {
    match TrySendLastSpeech(e)
    case Trap => Trap
    case Ok(st) =>
      var w' := st.engine.payloadList + [f];
      assert w'[..|w'| - 1] == st.engine.payloadList;
      Ok(Step(Engine(w', st.engine.lastSpeechFound), st.sent))
  }

  /** Silence is never trimmed: an idle window of empty frames keeps
      every frame, so it grows without bound while nobody speaks. */
  lemma SilenceIsNeverTrimmed(e: Engine, f: Frame)
    requires e.lastSpeechFound.UnSet() && f.isEmpty
    requires forall j :: 0 <= j < |e.payloadList| ==> e.payloadList[j].isEmpty
    ensures AnalyzeAudio(e, f) == Ok(Step(Engine(e.payloadList + [f], e.lastSpeechFound), []))
  {
    assert TryTrimPayloadList(e) == e;
  }

  /** The probe never looks at offsets 0 to 9: an idle window of 100
      frames that all sound loses its first ten frames anyway. */
  lemma TrimDropsEarlySound(e: Engine)
    requires e.lastSpeechFound.UnSet() && |e.payloadList| == HighWater
    requires forall j :: 0 <= j < |e.payloadList| ==> !e.payloadList[j].isEmpty
    ensures TryTrimPayloadList(e).payloadList == e.payloadList[ProbeFirst..]
  {
    assert ProbeFrom(e.payloadList, ProbeFirst) == Some(ProbeFirst);
  }

  /** After a forced flush the window starts with the flushed span's last
      frame: the chop is one frame short of the span. */
  lemma ValveKeepsLastFrame(e: Engine)
    requires !e.lastSpeechFound.UnSet() && TrySendLastSpeech(e).Ok?
    requires |e.payloadList| >= e.lastSpeechFound.endIndex + StaleLag
    ensures var after := TrySendLastSpeech(e).value.engine.payloadList;
            |after| > 0 && after[0] == e.payloadList[e.lastSpeechFound.endIndex]
  {
  }
}

=== FILE: outcomes.dfy ===
/** Result types shared by the engine model. */
module Outcomes {

  /** A value that may be absent. */
  datatype Option<+T> = None | Some(value: T)

  /** The result of running one engine entry point: either it returned,
      or the Swift runtime trapped (a closed range `a...b` with `a > b`,
      or an array index outside the buffer). */
  datatype Exec<+T> = Ok(value: T) | Trap
}

=== FILE: ranges.dfy ===
/** `PayloadsRange`: an inclusive range of window indices. */
module Ranges {
  import opened Frames

  /** The Swift class stores two mutable integers; here each mutator
      returns the updated value. `(0, 0)` doubles as "no range" (`unSet`),
      which collides with a genuine one-frame range at index 0. */
  datatype PayloadsRange = PayloadsRange(startIndex: int, endIndex: int) {

    function Amount(): int {
      endIndex - startIndex + 1
    }

    predicate UnSet() {
      startIndex == 0 && endIndex == 0
    }

    predicate Invalid() {
      startIndex >= endIndex
    }

    function SetRange(s: int, e: int): PayloadsRange {
      PayloadsRange(s, e)
    }

    function SetStart(s: int): PayloadsRange {
      this.(startIndex := s)
    }

    function SetEnd(e: int): PayloadsRange {
      this.(endIndex := e)
    }

    function ReSet(): PayloadsRange {
      PayloadsRange(0, 0)
    }
  }

  /** The value `PayloadsRange(startIndex: 0, endIndex: 0)` every range starts from. */
  const Unset := PayloadsRange(0, 0)

  /** Walking `startIndex...endIndex` over the window neither builds a
      reversed closed range nor reads outside the array: the condition
      under which `trimEmpty` does not trap. */
  predicate Trimmable(w: Window, r: PayloadsRange) {
    0 <= r.startIndex <= r.endIndex < |w|
  }

  /** The frames a range denotes in a window. */
  function Denotes(w: Window, r: PayloadsRange): seq<Frame>
    requires Trimmable(w, r)
  {
    w[r.startIndex .. r.endIndex + 1]
  }

  /** How the derived flags and the mutators relate. */
  lemma RangeFlags(r: PayloadsRange, s: int, e: int)
    ensures r.UnSet() ==> r.Invalid()
    ensures r.Invalid() <==> r.Amount() <= 1
    ensures r.ReSet().UnSet()
    ensures r.SetRange(s, e).UnSet() <==> s == 0 && e == 0
    ensures s != 0 ==> !r.SetRange(s, e).UnSet() && !r.SetStart(s).UnSet()
    ensures r.SetStart(s).endIndex == r.endIndex && r.SetStart(s).startIndex == s
    ensures r.SetEnd(e).startIndex == r.startIndex && r.SetEnd(e).endIndex == e
  {
  }
}

=== FILE: segmenter.dfy ===
/** The engine's two entry points — a captured frame and a classifier
    result — and runs over a sequence of them. */
module Segmenter {
  import opened Outcomes
  import opened Frames
  import opened Ranges
  import opened Trim
  import opened Emit
  import opened Correlator
  import opened EngineState
  import opened Accumulator
  import opened Housekeeping

  /** What reaches the engine: the tap's next frame, or a classifier result. */
  datatype Event = Captured(frame: Frame) | Classified(result: ClassificationResult)

  /** One event, handled to completion before the next: a frame goes to
      `analyzeAudio`, a classifier result to the observer's `speechFound`. */
  function Handle(e: Engine, ev: Event): (r: Exec<Step>)
    ensures ev.Captured? ==> r == AnalyzeAudio(e, ev.frame)
    ensures ev.Classified? ==> r == OnClassification(e, ev.result)
    ensures Inv(e) && r.Ok? ==> Inv(r.value.engine)
  {
    match ev
    case Captured(f) => AnalyzeAudio(e, f)
    case Classified(res) => OnClassification(e, res)
  }

  /** The state after a sequence of events; a trap ends the run. */
  function Run(e: Engine, evs: seq<Event>): Exec<Engine>
    decreases |evs|
  {
    if |evs| == 0 then Ok(e)
    else
      match Handle(e, evs[0])
      case Trap => Trap
      case Ok(st) => Run(st.engine, evs[1..])
  }

  /** Every state a run reaches keeps the pending span inside the window. */
  lemma {:induction false} RunKeepsInv(e: Engine, evs: seq<Event>)
    requires Inv(e)
    ensures Run(e, evs).Ok? ==> Inv(Run(e, evs).value)
    decreases |evs|
  {
    if |evs| > 0 {
      match Handle(e, evs[0])
      case Trap =>
      case Ok(st) => RunKeepsInv(st.engine, evs[1..]);
    }
  }

  /** A run of captured frames alone never traps from a state whose
      pending span is not reversed. */
  lemma {:induction false} CaptureOnlyNeverTraps(e: Engine, evs: seq<Event>)
    requires Forward(e)
    requires forall k :: 0 <= k < |evs| ==> evs[k].Captured?
    ensures Run(e, evs).Ok? && Forward(Run(e, evs).value)
    decreases |evs|
  {
    if |evs| > 0 {
      var st := AnalyzeAudio(e, evs[0].frame).value;
      assert forall k :: 0 <= k < |evs[1..]| ==> evs[1..][k] == evs[k + 1];
      CaptureOnlyNeverTraps(st.engine, evs[1..]);
    }
  }

  /** Without verdicts nothing is ever pending: a run of captured frames
      from an idle state never traps and stays idle. */
  lemma {:induction false} CapturesStayIdle(e: Engine, evs: seq<Event>)
    requires e.lastSpeechFound.UnSet()
    requires forall k :: 0 <= k < |evs| ==> evs[k].Captured?
    ensures Run(e, evs).Ok? && Run(e, evs).value.lastSpeechFound.UnSet()
    decreases |evs|
  {
    if |evs| > 0 {
      var st := AnalyzeAudio(e, evs[0].frame).value;
      assert forall k :: 0 <= k < |evs[1..]| ==> evs[1..][k] == evs[k + 1];
      CapturesStayIdle(st.engine, evs[1..]);
    }
  }

  /** Recording starts idle with an empty window, and captured frames
      alone keep it idle. */
  lemma RecordingStartsIdle(evs: seq<Event>)
    requires forall k :: 0 <= k < |evs| ==> evs[k].Captured?
    ensures Forward(Initial)
    ensures Run(Initial, evs).Ok? && Run(Initial, evs).value.lastSpeechFound.UnSet()
  {
    CapturesStayIdle(Initial, evs);
  }

  /** Thirty silent frames at times 0..29. */
  function Quiet30(): (w: Window)
    ensures |w| == 30 && forall j :: 0 <= j < 30 ==> w[j] == Frame(true, j)
  {
    seq(30, j => Frame(true, j))
  }

  /** A verdict covering only the frame at index 1 leaves the idle engine
      holding the reversed span (1, 0); the next captured frame then makes
      the stale-span valve trim that span, and it traps. */
  lemma SingleFrameVerdictTraps(f: Frame)
    ensures var e := Engine(Quiet30(), Unset);
            && SpeechFound(e, TimeRange(1, 1)) == Ok(Step(Engine(Quiet30(), PayloadsRange(1, 0)), []))
            && AnalyzeAudio(Engine(Quiet30(), PayloadsRange(1, 0)), f) == Trap
  {
    var w := Quiet30();
    var tr := TimeRange(1, 1);
    var r := Correlate(w, tr);
    assert Inside(w, tr, 1) && !Inside(w, tr, 2);
    assert r.startIndex == 1;
  }

  /** Thirteen sounding frames at times 0..12. */
  function Loud13(): (w: Window)
    ensures |w| == 13 && forall j :: 0 <= j < 13 ==> w[j] == Frame(false, j)
  {
    seq(13, j => Frame(false, j))
  }

  /** Pending span (0, 5). A verdict covering frames 6 and 7 lies one
      frame after the span's last sound and extends it to (0, 7). */
  lemma JoinExtends()
    ensures SpeechFound(Engine(Loud13(), PayloadsRange(0, 5)), TimeRange(6, 2))
            == Ok(Step(Engine(Loud13(), PayloadsRange(0, 7)), []))
  {
    var w := Loud13();
    var r1 := Correlate(w, TimeRange(6, 2));
    assert Inside(w, TimeRange(6, 2), 6) && Inside(w, TimeRange(6, 2), 7) && !Inside(w, TimeRange(6, 2), 8);
    assert r1.startIndex == 6;
    assert r1 == PayloadsRange(6, 7);
    assert TrimEmpty(w, r1) == r1;
    assert TrimEmpty(w, PayloadsRange(0, 5)) == PayloadsRange(0, 5);
  }

  /** The verdict covering times 2 and 3 matches frames 2 and 3. */
  lemma EarlyVerdictMatches()
    ensures Correlate(Loud13(), TimeRange(2, 2)) == PayloadsRange(2, 3)
  {
    var w := Loud13();
    var r := Correlate(w, TimeRange(2, 2));
    assert Inside(w, TimeRange(2, 2), 2) && Inside(w, TimeRange(2, 2), 3) && !Inside(w, TimeRange(2, 2), 4);
    assert r.startIndex == 2;
  }

  /** Pending span (5, 8). A verdict covering frames 2 and 3 does not lie
      after the span, so the span's end moves to 3: the span is now the
      reversed (5, 3), although both ranges were forward. */
  lemma EarlierVerdictReverses()
    ensures SpeechFound(Engine(Loud13(), PayloadsRange(5, 8)), TimeRange(2, 2))
            == Ok(Step(Engine(Loud13(), PayloadsRange(5, 3)), []))
  {
    var w := Loud13();
    EarlyVerdictMatches();
    assert TrimEmpty(w, PayloadsRange(2, 3)) == PayloadsRange(2, 3);
    assert TrimEmpty(w, PayloadsRange(5, 8)) == PayloadsRange(5, 8);
  }

  /** The reversed span (5, 3) traps at the next matched verdict, in the
      trim of the span that precedes the gap test. */
  lemma ReversedSpanTraps()
    ensures SpeechFound(Engine(Loud13(), PayloadsRange(5, 3)), TimeRange(2, 2)) == Trap
  {
    EarlyVerdictMatches();
  }

  /** Pending span (0, 7). A verdict covering frames 11 and 12 lies four
      frames after it: the span is emitted whole, the first 11 frames are
      dropped, and (11, 12) becomes the pending span (0, 1). */
  lemma GapFlushes()
    ensures SpeechFound(Engine(Loud13(), PayloadsRange(0, 7)), TimeRange(11, 2))
            == Ok(Step(Engine(Loud13()[11..], PayloadsRange(0, 1)), [PayloadsRange(0, 7)]))
  {
    var w := Loud13();
    LateVerdictMatches();
    var r2 := PayloadsRange(11, 12);
    assert TrimEmpty(w, r2) == r2;
    assert TrimEmpty(w, PayloadsRange(0, 7)) == PayloadsRange(0, 7);
    LoudSpanSentWhole();
  }

  /** The verdict covering times 11 and 12 matches frames 11 and 12. */
  lemma LateVerdictMatches()
    ensures Correlate(Loud13(), TimeRange(11, 2)) == PayloadsRange(11, 12)
  {
    var w := Loud13();
    var r2 := Correlate(w, TimeRange(11, 2));
    assert Inside(w, TimeRange(11, 2), 11) && Inside(w, TimeRange(11, 2), 12);
    assert r2.startIndex == 11;
  }

  /** A span of sounding frames has no cut, so it is emitted whole. */
  lemma LoudSpanSentWhole()
    ensures SendSpeech(Loud13(), PayloadsRange(0, 7)) == [PayloadsRange(0, 7)]
  {
    var w := Loud13();
    assert TrimEmpty(w, PayloadsRange(0, 7)) == PayloadsRange(0, 7);
  }
}

=== FILE: split.dfy ===
/** `trySplitRange`: cut a trimmed range at long silent runs. */
module Split {
  import opened Frames
  import opened Ranges
  import opened Trim

  /** Silent frames in a row that make a gap worth cutting at. */
  const GapFrames := 4

  /** Frame `i` is where the split loop cuts: it is non-empty and the
      `GapFrames` frames just before it are all empty. */
  predicate CutAt(w: Window, i: int) {
    && GapFrames <= i < |w|
    && !w[i].isEmpty
    && forall j :: i - GapFrames <= j < i ==> w[j].isEmpty
  }

  /** `rs` lists valid ranges that tile `s..e` in order: the first starts
      at `s`, the last ends at `e`, and each starts right after the one
      before it ends. */
  predicate Tiles(rs: seq<PayloadsRange>, s: int, e: int) {
    && |rs| > 0
    && rs[0].startIndex == s
    && rs[|rs| - 1].endIndex == e
    && (forall k :: 0 <= k < |rs| ==> !rs[k].Invalid())
    && (forall k :: 0 < k < |rs| ==> rs[k].startIndex == rs[k - 1].endIndex + 1)
  }

  /** The closed pieces the loop has collected tile `s .. pre - 1`;
      there are none while `pre` is still `s`. */
  predicate TilesBefore(acc: seq<PayloadsRange>, s: int, pre: int) {
    if |acc| == 0 then pre == s else Tiles(acc, s, pre - 1)
  }

  /** The loop variables of `trySplitRange`: `emptyStackAmount`,
      `preStartIndex` and the pieces `nonEmptyPayloads` appended so far. */
  datatype ScanState = ScanState(stack: int, pre: int, acc: seq<PayloadsRange>)

  /** What holds each time the loop reaches index `i` of the trimmed
      range `s..last` (and, with `i == last + 1`, once it has run):
      `stack` counts the empty frames just before `i` back to the
      non-empty frame at or after `pre`. */
  predicate ScanInv(w: Window, s: int, last: int, i: int, st: ScanState) {
    && 0 <= s <= st.pre <= last < |w|
    && st.pre <= i <= last + 1
    && s + 3 <= last
    && !w[s].isEmpty && !w[st.pre].isEmpty
    && 0 <= st.stack
    && (i == st.pre ==> st.stack == 0)
    && (i > st.pre ==> st.pre <= i - st.stack - 1 && !w[i - st.stack - 1].isEmpty)
    && (forall j :: i - st.stack <= j < i ==> w[j].isEmpty)
    && TilesBefore(st.acc, s, st.pre)
    && (forall k :: 0 < k < |st.acc| ==> CutAt(w, st.acc[k].startIndex))
    && (|st.acc| > 0 ==> CutAt(w, st.pre))
    && (forall k :: 0 <= k < |st.acc| ==> PieceOk(w, st.acc[k]))
    && (forall j :: st.pre < j < i ==> !CutAt(w, j))
  }

  /** A piece the loop closed at a cut: it spans more than `GapFrames`
      frames and no cut point lies inside it after its start. */
  predicate PieceOk(w: Window, p: PayloadsRange) {
    && p.startIndex + GapFrames <= p.endIndex
    && forall j :: p.startIndex < j <= p.endIndex ==> !CutAt(w, j)
  }

  /** The body of the loop at index `i`, before the end-of-range check:
      an empty frame grows the stack; a non-empty frame after at least
      `GapFrames` empty ones closes the piece `pre .. i - 1` and opens one
      at `i`; any non-empty frame resets the stack. */
  function ScanStep(w: Window, i: int, st: ScanState): ScanState
    requires 0 <= i < |w|
  {
    if w[i].isEmpty then st.(stack := st.stack + 1)
    else if st.stack >= GapFrames then
      ScanState(0, i, st.acc + [PayloadsRange(st.pre, i - 1)])
    else st.(stack := 0)
  }

  /** The end of the loop, at `i == rangeTrim.endIndex`: a last piece of
      fewer than three frames (`i - preStartIndex < 2`) is merged into the
      previous one, otherwise it is appended. */
  function CloseLast(acc: seq<PayloadsRange>, pre: int, i: int): seq<PayloadsRange> {
    if i - pre < 2 then
      if |acc| == 0 then [PayloadsRange(pre, i)]
      else acc[..|acc| - 1] + [acc[|acc| - 1].SetEnd(i)]
    else acc + [PayloadsRange(pre, i)]
  }

  /** What the split promises about its pieces over `s..last`: they tile
      it, every piece after the first starts at a cut point, and a cut
      point inside a piece can only be one the merge of the last piece
      swallowed, fewer than two frames before `last`. */
  predicate SplitPost(w: Window, s: int, last: int, rs: seq<PayloadsRange>) {
    && Tiles(rs, s, last)
    && (forall k :: 0 < k < |rs| ==> CutAt(w, rs[k].startIndex))
    && (forall k :: 0 <= k < |rs| ==>
          forall j :: rs[k].startIndex < j <= rs[k].endIndex && CutAt(w, j) ==>
            k == |rs| - 1 && last < j + 2)
  }

  lemma StepEmpty(w: Window, s: int, last: int, i: int, st: ScanState)
    requires ScanInv(w, s, last, i, st) && i <= last && w[i].isEmpty
    ensures ScanInv(w, s, last, i + 1, ScanStep(w, i, st))
  {
    assert i > st.pre;
  }

  /** Appending a valid piece that starts where the tiling stops extends it. */
  lemma AppendTiles(acc: seq<PayloadsRange>, s: int, piece: PayloadsRange)
    requires TilesBefore(acc, s, piece.startIndex) && !piece.Invalid()
    ensures Tiles(acc + [piece], s, piece.endIndex)
  {
    assert forall k :: 0 <= k < |acc| ==> (acc + [piece])[k] == acc[k];
  }

  /** Appending a closed piece that starts at a cut keeps every piece
      after the first starting at a cut, and every piece well formed. */
  lemma AppendPiece(w: Window, acc: seq<PayloadsRange>, piece: PayloadsRange)
    requires forall k :: 0 < k < |acc| ==> CutAt(w, acc[k].startIndex)
    requires forall k :: 0 <= k < |acc| ==> PieceOk(w, acc[k])
    requires |acc| > 0 ==> CutAt(w, piece.startIndex)
    requires PieceOk(w, piece)
    ensures forall k :: 0 < k < |acc + [piece]| ==> CutAt(w, (acc + [piece])[k].startIndex)
    ensures forall k :: 0 <= k < |acc + [piece]| ==> PieceOk(w, (acc + [piece])[k])
  {
    assert forall k :: 0 <= k < |acc| ==> (acc + [piece])[k] == acc[k];
  }

  lemma StepCut(w: Window, s: int, last: int, i: int, st: ScanState)
    requires ScanInv(w, s, last, i, st) && i <= last
    requires !w[i].isEmpty && st.stack >= GapFrames
    ensures ScanInv(w, s, last, i + 1, ScanStep(w, i, st))
  {
    var piece := PayloadsRange(st.pre, i - 1);
    assert CutAt(w, i);
    assert PieceOk(w, piece);
    AppendTiles(st.acc, s, piece);
    AppendPiece(w, st.acc, piece);
  }

  lemma StepSound(w: Window, s: int, last: int, i: int, st: ScanState)
    requires ScanInv(w, s, last, i, st) && i <= last
    requires !w[i].isEmpty && st.stack < GapFrames
    ensures ScanInv(w, s, last, i + 1, ScanStep(w, i, st))
  {
    if i > st.pre {
      assert !CutAt(w, i) by {
        assert i - GapFrames <= i - st.stack - 1 < i;
      }
    }
  }

  lemma StepKeepsInv(w: Window, s: int, last: int, i: int, st: ScanState)
    requires ScanInv(w, s, last, i, st) && i <= last
    ensures ScanInv(w, s, last, i + 1, ScanStep(w, i, st))
  {
    if w[i].isEmpty {
      StepEmpty(w, s, last, i, st);
    } else if st.stack >= GapFrames {
      StepCut(w, s, last, i, st);
    } else {
      StepSound(w, s, last, i, st);
    }
  }

  /** Closing with a last piece of at least three frames appends it. */
  lemma CloseAppend(w: Window, s: int, last: int, st: ScanState)
    requires ScanInv(w, s, last, last + 1, st) && last - st.pre >= 2
    ensures SplitPost(w, s, last, CloseLast(st.acc, st.pre, last))
    ensures forall k :: 0 <= k < |CloseLast(st.acc, st.pre, last)| ==>
              CloseLast(st.acc, st.pre, last)[k].startIndex + 2 <= CloseLast(st.acc, st.pre, last)[k].endIndex
  {
    var acc, pre := st.acc, st.pre;
    var piece := PayloadsRange(pre, last);
    var rs := CloseLast(acc, pre, last);
    assert rs == acc + [piece];
    AppendTiles(acc, s, piece);
    assert forall k :: 0 <= k < |acc| ==> rs[k] == acc[k] && PieceOk(w, acc[k]);
    assert forall k :: 0 < k < |rs| ==> CutAt(w, rs[k].startIndex);
    assert forall j :: piece.startIndex < j <= piece.endIndex ==> !CutAt(w, j);
  }

  /** Closing with a shorter last piece extends the previous piece. */
  lemma CloseMerge(w: Window, s: int, last: int, st: ScanState)
    requires ScanInv(w, s, last, last + 1, st) && last - st.pre < 2
    ensures SplitPost(w, s, last, CloseLast(st.acc, st.pre, last))
    ensures forall k :: 0 <= k < |CloseLast(st.acc, st.pre, last)| ==>
              CloseLast(st.acc, st.pre, last)[k].startIndex + 2 <= CloseLast(st.acc, st.pre, last)[k].endIndex
  {
    var acc, pre := st.acc, st.pre;
    if |acc| == 0 {
      assert false;
    } else {
      var rs := CloseLast(acc, pre, last);
      var n := |acc|;
      var merged := acc[n - 1].SetEnd(last);
      assert PieceOk(w, acc[n - 1]);
      assert rs == acc[..n - 1] + [merged];
      assert forall k :: 0 <= k < n - 1 ==> rs[k] == acc[k];
      assert Tiles(rs, s, last);
      assert forall j :: merged.startIndex < j <= merged.endIndex && CutAt(w, j) ==> j == pre;
    }
  }

  lemma CloseKeepsPost(w: Window, s: int, last: int, st: ScanState)
    requires ScanInv(w, s, last, last + 1, st)
    ensures SplitPost(w, s, last, CloseLast(st.acc, st.pre, last))
    ensures forall k :: 0 <= k < |CloseLast(st.acc, st.pre, last)| ==>
              CloseLast(st.acc, st.pre, last)[k].startIndex + 2 <= CloseLast(st.acc, st.pre, last)[k].endIndex
  {
    if last - st.pre >= 2 {
      CloseAppend(w, s, last, st);
    } else {
      CloseMerge(w, s, last, st);
    }
  }

  /** The loop of `trySplitRange` from index `i` to `last`. */
  function SplitScan(w: Window, s: int, last: int, i: int, st: ScanState): (rs: seq<PayloadsRange>)
    requires ScanInv(w, s, last, i, st) && i <= last
    ensures SplitPost(w, s, last, rs)
    ensures forall k :: 0 <= k < |rs| ==> rs[k].startIndex + 2 <= rs[k].endIndex
    decreases last - i
  {
    StepKeepsInv(w, s, last, i, st);
    var st' := ScanStep(w, i, st);
    if i == last then
      CloseKeepsPost(w, s, last, st');
      CloseLast(st'.acc, st'.pre, i)
    else
      SplitScan(w, s, last, i + 1, st')
  }

  /** `trySplitRange`: trim the range; nothing when that leaves it invalid,
      the trimmed range itself when it has at most three frames, otherwise
      the pieces of the loop. */
  function TrySplitRange(w: Window, r: PayloadsRange): (rs: seq<PayloadsRange>)
    requires Trimmable(w, r)
    ensures rs == [] <==> TrimEmpty(w, r).Invalid()
    ensures !TrimEmpty(w, r).Invalid() && TrimEmpty(w, r).Amount() <= 3 ==> rs == [TrimEmpty(w, r)]
    ensures rs != [] ==> SplitPost(w, TrimEmpty(w, r).startIndex, TrimEmpty(w, r).endIndex, rs)
    ensures |rs| > 1 ==> forall k :: 0 <= k < |rs| ==> rs[k].startIndex + 2 <= rs[k].endIndex
  {
    var t := TrimEmpty(w, r);
    if t.Invalid() then []
    else if t.Amount() <= 3 then [t]
    else SplitScan(w, t.startIndex, t.endIndex, t.startIndex, ScanState(0, t.startIndex, []))
  }

  /** Tiling pieces are strictly ordered: each ends before any later one starts. */
  lemma {:induction false} TilesOrdered(rs: seq<PayloadsRange>, s: int, e: int)
    requires Tiles(rs, s, e)
    ensures forall a, b :: 0 <= a < b < |rs| ==> rs[a].endIndex < rs[b].startIndex
  {
    var n := |rs|;
    if n > 1 {
      var init := rs[..n - 1];
      assert Tiles(init, s, rs[n - 2].endIndex);
      TilesOrdered(init, s, rs[n - 2].endIndex);
      forall a | 0 <= a < n - 1
        ensures rs[a].endIndex < rs[n - 1].startIndex
      {
        assert init[a] == rs[a];
        if a < n - 2 {
          assert init[n - 2] == rs[n - 2];
        }
      }
    }
  }

  /** Tiling pieces lie inside the range they tile. */
  lemma TilesWithin(rs: seq<PayloadsRange>, s: int, e: int)
    requires Tiles(rs, s, e)
    ensures forall k :: 0 <= k < |rs| ==> s <= rs[k].startIndex < rs[k].endIndex <= e
  {
    TilesOrdered(rs, s, e);
    forall k | 0 <= k < |rs|
      ensures s <= rs[k].startIndex && rs[k].endIndex <= e
    {
      if 0 < k {
        assert rs[0].endIndex < rs[k].startIndex;
      }
      if k < |rs| - 1 {
        assert rs[k].endIndex < rs[|rs| - 1].startIndex;
      }
    }
  }

  /** Tiling pieces cover every index of `s..e`. */
  lemma {:induction false} TilesCover(rs: seq<PayloadsRange>, s: int, e: int, j: int)
    requires Tiles(rs, s, e) && s <= j <= e
    ensures exists k :: 0 <= k < |rs| && rs[k].startIndex <= j <= rs[k].endIndex
  {
    var n := |rs|;
    if rs[n - 1].startIndex > j {
      var init := rs[..n - 1];
      assert Tiles(init, s, rs[n - 2].endIndex);
      TilesCover(init, s, rs[n - 2].endIndex, j);
      var k :| 0 <= k < |init| && init[k].startIndex <= j <= init[k].endIndex;
      assert rs[k] == init[k];
    }
  }

  /** The pieces after the first start exactly at the cut points of the
      trimmed range that lie at least two frames before its end; a cut
      nearer the end is merged away with the short tail it would open. */
  lemma SplitStartsAreCuts(w: Window, r: PayloadsRange, j: int)
    requires Trimmable(w, r)
    requires TrimEmpty(w, r).startIndex < j <= TrimEmpty(w, r).endIndex
    ensures (exists k :: 0 < k < |TrySplitRange(w, r)| && TrySplitRange(w, r)[k].startIndex == j)
            <==> CutAt(w, j) && j + 2 <= TrimEmpty(w, r).endIndex
  {
    var t := TrimEmpty(w, r);
    var rs := TrySplitRange(w, r);
    assert !t.Invalid() && rs != [];
    var n := |rs|;
    assert rs[0].startIndex == t.startIndex && rs[n - 1].endIndex == t.endIndex;
    if n == 1 {
      if CutAt(w, j) {
        assert rs[0].startIndex < j <= rs[0].endIndex;
      }
    } else {
      TilesOrdered(rs, t.startIndex, t.endIndex);
      if CutAt(w, j) && j + 2 <= t.endIndex {
        TilesCover(rs, t.startIndex, t.endIndex, j);
        var k :| 0 <= k < n && rs[k].startIndex <= j <= rs[k].endIndex;
        assert rs[k].startIndex == j;
      }
      if exists k :: 0 < k < n && rs[k].startIndex == j {
        var k :| 0 < k < n && rs[k].startIndex == j;
        assert rs[k].endIndex <= t.endIndex;
      }
    }
  }

  /** The silent run that triggers a cut stays at the end of the piece
      before it: the four empty frames before a later piece's start all
      lie in the previous piece, after that piece's (sounding) start. */
  lemma SilenceStaysBehind(w: Window, r: PayloadsRange, k: int)
    requires Trimmable(w, r)
    requires 0 < k < |TrySplitRange(w, r)|
    ensures var rs := TrySplitRange(w, r);
            && !w[rs[k - 1].startIndex].isEmpty
            && rs[k - 1].startIndex < rs[k].startIndex - GapFrames
            && forall j :: rs[k].startIndex - GapFrames <= j < rs[k].startIndex ==>
                 w[j].isEmpty && rs[k - 1].startIndex < j <= rs[k - 1].endIndex
  {
    var rs := TrySplitRange(w, r);
    var t := TrimEmpty(w, r);
    assert CutAt(w, rs[k].startIndex);
    if k - 1 > 0 {
      assert CutAt(w, rs[k - 1].startIndex);
    } else {
      assert rs[0].startIndex == t.startIndex;
    }
  }

  /** Frames 2..4 sound, 5..8 silent, 9 sound: the range 2..9 comes back
      whole, because the cut at 9 would open a one-frame tail, which is
      merged into the piece before it. */
  lemma SplitMergesShortTail()
    ensures var s, q := Frame(true, 0), Frame(false, 0);
            TrySplitRange([s, s, q, q, q, s, s, s, s, q], PayloadsRange(2, 9)) == [PayloadsRange(2, 9)]
  {
    var s, q := Frame(true, 0), Frame(false, 0);
    var w := [s, s, q, q, q, s, s, s, s, q];
    var r := PayloadsRange(2, 9);
    assert TrimEmpty(w, r) == r;
  }
}

=== FILE: trim.dfy ===
/** `trimEmpty`: strip silent frames from both ends of a range. */
module Trim {
  import opened Frames
  import opened Ranges

  /** The first loop of `trimEmpty`: from `i`, step past empty frames,
      but never past `e`. */
  function ScanStart(w: Window, i: int, e: int): (k: int)
    requires 0 <= i <= e < |w|
    ensures i <= k <= e
    ensures forall j :: i <= j < k ==> w[j].isEmpty
    ensures w[k].isEmpty ==> k == e
    decreases e - i
  {
    if !w[i].isEmpty then i
    else if i == e then i
    else ScanStart(w, i + 1, e)
  }

  /** The second loop of `trimEmpty`: from `j` downwards, step past empty
      frames, but never below `s`. */
  function ScanEnd(w: Window, s: int, j: int): (k: int)
    requires 0 <= s <= j < |w|
    ensures s <= k <= j
    ensures forall m :: k < m <= j ==> w[m].isEmpty
    ensures w[k].isEmpty ==> k == s
    decreases j - s
  {
    if !w[j].isEmpty then j
    else if j == s then j
    else ScanEnd(w, s, j - 1)
  }

  /** The range narrowed to its first and last non-empty frame; a range
      with no non-empty frame collapses to its own end, `(e, e)`. */
  function TrimEmpty(w: Window, r: PayloadsRange): (t: PayloadsRange)
    requires Trimmable(w, r)
    ensures r.startIndex <= t.startIndex <= t.endIndex <= r.endIndex
    ensures Trimmable(w, t)
    ensures forall j :: r.startIndex <= j < t.startIndex ==> w[j].isEmpty
    ensures forall j :: t.endIndex < j <= r.endIndex ==> w[j].isEmpty
    ensures !w[t.startIndex].isEmpty ==> !w[t.endIndex].isEmpty
    ensures w[t.startIndex].isEmpty ==> t.startIndex == t.endIndex == r.endIndex
  {
    var s := ScanStart(w, r.startIndex, r.endIndex);
    PayloadsRange(s, ScanEnd(w, s, r.endIndex))
  }

  /** The range holds a non-empty frame somewhere. */
  predicate HasSound(w: Window, r: PayloadsRange)
    requires Trimmable(w, r)
  {
    exists j :: r.startIndex <= j <= r.endIndex && !w[j].isEmpty
  }

  /** When the range holds sound, both ends of the trimmed range are
      non-empty; otherwise it is the one-frame range at the old end. */
  lemma TrimEnds(w: Window, r: PayloadsRange)
    requires Trimmable(w, r)
    ensures HasSound(w, r) <==> !w[TrimEmpty(w, r).startIndex].isEmpty
    ensures HasSound(w, r) ==> !w[TrimEmpty(w, r).endIndex].isEmpty
    ensures !HasSound(w, r) ==> TrimEmpty(w, r) == PayloadsRange(r.endIndex, r.endIndex)
  {
    var t := TrimEmpty(w, r);
    if HasSound(w, r) {
      var j :| r.startIndex <= j <= r.endIndex && !w[j].isEmpty;
      assert t.startIndex <= j;
    }
  }

  /** The trimmed range is invalid exactly when the range holds fewer than
      two non-empty frames. */
  lemma TrimInvalidIff(w: Window, r: PayloadsRange)
    requires Trimmable(w, r)
    ensures TrimEmpty(w, r).Invalid() <==>
            !exists i, j :: r.startIndex <= i < j <= r.endIndex && !w[i].isEmpty && !w[j].isEmpty
  {
    var t := TrimEmpty(w, r);
    if exists i, j :: r.startIndex <= i < j <= r.endIndex && !w[i].isEmpty && !w[j].isEmpty {
      var i, j :| r.startIndex <= i < j <= r.endIndex && !w[i].isEmpty && !w[j].isEmpty;
      assert t.startIndex <= i;
      assert j <= t.endIndex;
    }
  }

  /** Trimming a trimmed range changes nothing. */
  lemma TrimIdempotent(w: Window, r: PayloadsRange)
    requires Trimmable(w, r)
    ensures TrimEmpty(w, TrimEmpty(w, r)) == TrimEmpty(w, r)
  {
  }
}
